=== FILE: README.md ===
# sentinel-rs, modelled in Dafny

sentinel-rs runs one shell command through `bash -c`. It shows the command's output live on the
terminal and captures it in memory at the same time. It reports the start and the end of the run
as Telegram messages. This project models the logic of `src/main.rs` that decides what happens:

- **Output tail** (`tail_bytes`): the text a notification shows for a captured stream. That is
  the whole buffer when it fits in the limit. Otherwise it is a truncation marker that states the
  limit, followed by the last `max` bytes. Bytes become text by lossy UTF-8 decoding
  (`String::from_utf8_lossy`). The decoder is written out as the Unicode Standard defines it
  (chapter 3, "U+FFFD substitution of maximal subparts"), together with an encoder whose output the decoder reads back unchanged.
- **Stream relay** (`read_stream`): an imperative loop. It reads chunks of at most 4096 bytes
  into an array, echoes each chunk to a writer when `tee` is set, and appends it to an
  accumulator. The reader is a `Reader` object: a script of what its reads deliver, including
  read errors. The writer is a `Sink` object: it keeps what it receives, and its scripted
  outcomes can refuse a `write_all` or fail a `flush`. `ReadStream` is proved against `Relay`, a
  function that gives the loop's meaning. The lemmas relate `Relay` to `Drain`, an independent
  reading of the stream that ignores chunking.
- **Result assembly** (`run_bash_with_tee`, `run_bash`): how the spawn, the wait and the two
  relay threads combine into one `Output` or one error, and which error wins.
- **Argument decision** (start of `main`): usage, help, version, a missing command, or the
  command line to run.
- **Notifications** (rest of `main`, `format_message`, `telegram_payload`): the two messages a
  run enqueues, the text each one carries, and the payload it is posted with.

Modules: `Wrappers` (Option, Result, bytes, I/O errors), `Utf8`, `Decimal` (the `{}` formatting
of integers and a reader for it), `Tail`, `Relay`, `Runner`, `Cli` and `Notify`.

## Model

| member | source | states |
|---|---|---|
| `Utf8.Lossy` | src/main.rs:124 | Lossy decoding never fails. It yields no more characters than there are bytes, and yields nothing only for an empty buffer. |
| `Utf8.DecodeOne` | src/main.rs:124 | One decoding step uses between 1 and 4 bytes. An ASCII byte is its own character. A replacement character covers exactly the maximal ill-formed subpart. |
| `Utf8.LossyAscii` | src/main.rs:124 | On ASCII bytes the lossy decoder is the identity. |
| `Utf8.LossyEncode` | src/main.rs:130 | Decoding the UTF-8 encoding of any text gives the text back, so valid output is shown unchanged. |
| `Utf8.DecodeEncodedChar` | src/main.rs:130 | The decoder reads back exactly the character the encoder wrote, whatever bytes follow it. |
| `Decimal.ValueOfNatToString` | src/main.rs:128 | The decimal text of a limit reads back as that limit. |
| `Decimal.ReadIntToString` | src/main.rs:206-207 | The text of any exit code, negative ones included, reads back as that code when a non-digit follows it. |
| `Tail.TruncationMarker` | src/main.rs:127-129 | The marker is the fixed head, then decimal digits only, then the fixed tail, which ends the line. |
| `Tail.TailBytes` | src/main.rs:122-133 | The shown text is bounded by the limit plus the marker, whatever the buffer's size. A buffer within the limit gives no more characters than it has bytes. A zero limit shows the marker alone for any non-empty buffer. |
| `Tail.TailWithinLimit` | src/main.rs:123-124 | A buffer no longer than the limit, including one exactly as long, is shown whole with no marker. |
| `Tail.TailOverLimit` | src/main.rs:125-132 | For any buffer split into a non-empty cut part and a shown part of exactly `max` bytes, the result is the marker followed by the decoded shown part. |
| `Tail.StatedLimitOfMarker` | src/main.rs:127-129 | The marker states its limit: reading the number after the marker's head gives `max` back. |
| `Tail.TailMarkedIffTruncated` | src/main.rs:122-133 | For ASCII output, the text starts with a marker that states `max` if and only if the buffer is longer than `max`. |
| `Tail.TailOfAsciiText` | src/main.rs:122-133 | An ASCII text is shown unchanged when it fits. Otherwise it is the marker and exactly its last `max` characters. |
| `Tail.TailAlphabetExample` | src/main.rs:282-286 | The 26 letters under the limit 10 give the marker followed by "qrstuvwxyz". |
| `Tail.MarkerOfTen` | src/main.rs:282-286 | The marker for 10 reads "… (truncated, showing last 10 bytes)" and a line break. |
| `Tail.TailHelloExample` | src/main.rs:288-293 | "hello" under the limit 10 is "hello". |
| `Tail.TailExactBoundaryExample` | src/main.rs:295-300 | A 9-byte text under the limit 9 is shown unmarked. |
| `Tail.TailNonUtf8Example` | src/main.rs:302-307 | The bytes 0x66 0xFF 0x6F are shown as "f", U+FFFD, "o". |
| `Relay.NextRead` | src/main.rs:63-66 | A read into the chunk array delivers at most its length. It delivers nothing only at end of stream. Every other read uses up part of the source. |
| `Relay.Reader.Read` | src/main.rs:65 | The read puts the delivered bytes at the front of the buffer. It returns how many bytes it put there, or the read error, and advances the reader's script. |
| `Relay.Sink.WriteAll` | src/main.rs:70 | An accepted write appends the whole chunk. A refused write appends only the accepted part and returns the error. |
| `Relay.Sink.Flush` | src/main.rs:71 | A flush leaves the received bytes and the write script unchanged, and may report an error. |
| `Relay.RelayRound` | src/main.rs:65-73 | One pass of the loop: a read error or a refused write stops it with that error, and an empty read stops it at the end. Otherwise the bytes read come first in what `Relay` returns and echoes, and the scripts left over account for the rest. |
| `Relay.Relay` | src/main.rs:62-75 | The meaning of the loop: without tee nothing is echoed. With tee, a relay that succeeds has echoed exactly what it returns. `RelayWithoutTee`, `RelayTeeAccepted`, `RelaySucceeded` and `RelayFailed` tie it to `Drain`. |
| `Relay.ReadStream` | src/main.rs:57-76 | Returns what `Relay` gives for the reader's and the writer's scripts, and leaves on the writer exactly what `Relay` echoes. A failed flush changes nothing. Without tee the writer is untouched. |
| `Relay.RelayWithoutTee` | src/main.rs:62-75 | Without tee, the result is the whole stream up to its end, or its first read error, however reads cut it into chunks. Nothing is echoed. |
| `Relay.RelayTeeAccepted` | src/main.rs:69-73 | With tee and a writer that takes every write, the result is the drained stream. The writer receives the same bytes in the same order. |
| `Relay.RelaySucceeded` | src/main.rs:73-75 | A successful relay read the stream to its end and returns all of it. With tee it echoed exactly the returned bytes. Without tee it echoed nothing. |
| `Relay.RelayFailed` | src/main.rs:65-70 | A failed relay reports the stream's first read error or, with tee, the error of a refused write, and returns no buffer. Whatever was echoed is an in-order prefix of the stream. |
| `Relay.ReadCursor` | src/main.rs:323-341 | Relaying a cursor over any bytes returns all of them. The writer receives the same bytes with tee and nothing without. |
| `Runner.Assemble` | src/main.rs:98-110 | The assembly succeeds if and only if the wait and both relays succeeded. It then carries the exit status and both relay buffers unchanged. |
| `Runner.AssemblePrecedence` | src/main.rs:98-110 | When several steps fail, the error reported is, in order: the wait's error, a stdout thread panic, a stderr thread panic, the stdout relay's error, then the stderr relay's error. |
| `Runner.RunWithTee` | src/main.rs:78-111 | A spawn error is returned as is. A missing stdout pipe fails with "Failed to capture stdout", and a missing stderr pipe after it with "Failed to capture stderr". The run succeeds exactly when the child was spawned with both pipes, the wait succeeded and both relays succeeded. It then returns the exit status and both relay buffers. |
| `Runner.RunBashMessage` | src/main.rs:114-119 | The wrapped message names the command and ends with the original error's message. |
| `Runner.RunBash` | src/main.rs:113-120 | An output passes unchanged. An error keeps its kind and gets the wrapped message. |
| `Cli.Join` | src/main.rs:174 | The joined text is as long as the tokens together plus one character for each gap between neighbours. `JoinAppend` and `SplitJoin` state that the character in each gap is a space. |
| `Cli.JoinAppend` | src/main.rs:174 | Joining two non-empty runs of tokens gives their joins with one space between. |
| `Cli.SplitJoin` | src/main.rs:174 | Joining tokens that hold no space and splitting at spaces gives the tokens back. |
| `Cli.Decide` | src/main.rs:148-174 | Usage if and only if there are no arguments. Help, or version, if and only if the flag is the sole argument. A missing command if and only if the sole argument is `--`. Any other argument list runs the command tokens joined with spaces. |
| `Cli.CommandTokens` | src/main.rs:164-173 | The command tokens are the arguments with one leading `--` removed, or all of them when there is none. |
| `Cli.QuotedCommand` | src/main.rs:140 | A single argument after `--` is the whole command, spaces included: `-- "echo hello"` runs `echo hello`. |
| `Cli.DecideRunTokens` | src/main.rs:164-174 | For a command to run, splitting the command line gives back exactly the arguments after an optional leading `--`, when no argument holds a space. |
| `Cli.SeparatorThenFlagExample` | src/main.rs:164-174 | `-- --help` runs a command named `--help`. |
| `Cli.FlagAmongArgumentsExample` | src/main.rs:154-157 | A help flag next to another argument is part of the command. |
| `Cli.SeparatedCommandExample` | src/main.rs:164-174 | `-- ls -la` runs `ls -la`. |
| `Cli.ExitCode` | src/main.rs:149-168 | The process exits with 2 exactly for usage and for a missing command. It exits with 0 otherwise, including after any run. |
| `Notify.FormatMessage` | src/main.rs:16-18 | The message is six characters longer than the timestamp, the host and the text together, and it ends with the text unchanged. `FormatMessageLayout` states where each field sits. |
| `Notify.FormatMessageLayout` | src/main.rs:16-18 | The message is "[", the timestamp, "] [", the host, "]" and a line break, then the text, each at its exact position. |
| `Notify.FormatMessageExample` | src/main.rs:267-271 | The timestamp "2025-01-01 00:00:00", the host "host" and the text "hello" give the header line, then "hello". |
| `Notify.TelegramPayload` | src/main.rs:20-26 | The payload carries the given chat id and text, with link previews disabled. |
| `Notify.PayloadCarriesMessage` | src/main.rs:34-40 | The posted payload goes to the configured chat, with previews off. The message stands intact below the header line when the timestamp and the host are single lines. |
| `Notify.Classify` | src/main.rs:179-229 | An error is an execution failure with its message. Exit code 0 is success. Any other exit code is a failure with that code. No exit code means a signal. Each holds in both directions. |
| `Notify.Streams` | src/main.rs:196-198 | The stream tails in a notification are bounded, however much the child wrote. |
| `Notify.TerminalMessage` | src/main.rs:192-229 | Every notice about a finished child ends with the tails of its stdout and stderr under the limit of 1500. |
| `Notify.ReadTerminalMessage` | src/main.rs:179-229 | The terminal notice tells a reader exactly how the run ended. That is execution failure with its message, success, failure with the exit code, or a signal. |
| `Notify.StartedMessage` | src/main.rs:177 | The first notice starts with a "Started" line. The rest of it is exactly the command. |
| `Notify.Notifications` | src/main.rs:176-229 | A run enqueues exactly two messages, in order. The first is the "Started" notice for the command. The second is the terminal notice for `run_bash`'s result, from which a reader recovers how the run ended. When the child ran, it ends with both stream tails. |
| `Notify.ExecFailureNotice` | src/main.rs:179-189 | A run whose `run_bash` fails sends the execution-failure head. It is followed by the `run_bash` wrapping with the command and the original error. |
| `Notify.ExitCodeNoticeExample` | src/main.rs:203-211 | A child exiting with 101 is reported as "Failed with exit code: 101.", followed by both tails. |

## Left out

- Spawning the child (`bash -c`, piped streams, inherited stdin, `child.wait`, src/main.rs:79-98) is operating-system I/O. `RunWithTee` takes the spawn, the pipes and the wait as their results.
- The relay threads and their concurrent draining (src/main.rs:95-96) are not modelled. Each relay is modelled alone. The interleaving of stdout and stderr on the terminal is not captured.
- The notifier worker and its channel (`start_notifier`, src/main.rs:45-55) are left out. The order of delivery is the order of the sequence `Notifications` returns. A delivery failure is only printed there and changes nothing the model states.
- `tg_send` (src/main.rs:28-43) and `env_required` (src/main.rs:12-14) are left out. They use HTTP, JSON serialisation, environment variables, the wall clock and the host name. The timestamp and the host name are parameters of `FormatMessage`. The payload is a three-field datatype, not JSON. The token and chat id are not read.
- Logging (`info!`), `eprintln!` and the help and version texts are not modelled. Only the decision and the exit code are.
- The process exit code follows the code: after a run, `main` returns normally, so the process exits with 0 whatever the child did. The end-to-end tests expect otherwise. They set `TG_API_BASE` (tests/e2e.rs:10) and expect exit code 101 from a failing child (tests/e2e.rs:41) and 1 from a spawn failure (tests/e2e.rs:103). `src/main.rs` neither reads `TG_API_BASE` nor passes an exit code through, and the model does not add either.
- Missing configuration is not a startup error in the code. `tg_send` reads the environment for every message and only prints the failure, so the command still runs. The model does not add a startup check.
- `Utf8.Lossy` follows the Unicode Standard's maximal-subpart practice. The standard library's own implementation is not part of this model.
- I/O errors are a kind and a message. A kind other than `ErrorKind::Other` is carried by its name only. An operating-system error's `Display` text is taken to be its message.
- A reader's script is a finite sequence of read outcomes. So a stream that never ends (the output of `yes`, say) is not modelled. `ReadStream`'s loop terminates because the script shrinks with every read, and the source's loop has no such guarantee.
- `TailBytes` and `Streams` bound their text in characters. Rust measures a `String` in bytes. Each U+FFFD a lossy decode inserts takes 3 bytes, so the same bound in bytes is up to about three times as large.
- Integer widths (`usize` limits, `i32` exit codes) are unbounded integers. No arithmetic in the modelled code can overflow for real values.

=== FILE: cli.dfy ===
/**
 * The argument handling at the start of `main`: what to do with the list of
 * arguments after the program name, and the process exit code each choice leads to.
 */
module Cli {

  /** The choices `main` makes before anything runs. */
  datatype Decision =
    | Usage                    // no arguments: usage text, exit 2
    | Help                     // a lone `--help` or `-h`
    | Version                  // a lone `--version` or `-V`
    | MissingCommand           // a lone `--`: "Missing command after --.", exit 2
    | Run(command: string)     // run this command line

  /** The number of characters in all of `parts` together. */
  function TotalLength(parts: seq<string>): nat {
    if parts == [] then 0 else |parts[0]| + TotalLength(parts[1..])
  }

  /** `join(" ")`: the tokens with one space between neighbours, and nothing else added. */
  function Join(parts: seq<string>): (r: string)
    ensures parts != [] ==> |r| == TotalLength(parts) + |parts| - 1
  {
    if parts == [] then ""
    else if |parts| == 1 then parts[0]
    else parts[0] + " " + Join(parts[1..])
  }

  /** Splitting at every space, the inverse of `Join` for tokens without spaces. */
  function Split(s: string): (r: seq<string>)
    ensures |r| >= 1
  {
    if s == [] then [[]]
    else
      var rest := Split(s[1..]);
      if s[0] == ' ' then [[]] + rest else [[s[0]] + rest[0]] + rest[1..]
  }

  /** Joining two non-empty runs of tokens puts one space between their joins. */
  lemma {:induction false} JoinAppend(p: seq<string>, q: seq<string>)
    requires p != [] && q != []
    ensures Join(p + q) == Join(p) + " " + Join(q)
  {
    assert (p + q)[0] == p[0];
    if |p| == 1 {
      assert (p + q)[1..] == q;
    } else {
      assert (p + q)[1..] == p[1..] + q;
      JoinAppend(p[1..], q);
    }
  }

  predicate NoSpace(s: string) {
    forall i :: 0 <= i < |s| ==> s[i] != ' '
  }

  /** A token without spaces, then a space or the end of the text, splits off as the first field. */
  lemma {:induction false} SplitToken(a: string, rest: string)
    requires NoSpace(a)
    requires rest == [] || rest[0] == ' '
    ensures Split(a + rest) == if rest == [] then [a] else [a] + Split(rest[1..])
  {
    if a == [] {
      assert a + rest == rest;
      if rest != [] {
        assert Split(rest) == [[]] + Split(rest[1..]);
      }
    } else {
      assert (a + rest)[0] == a[0] && (a + rest)[1..] == a[1..] + rest;
      SplitToken(a[1..], rest);
      assert [a[0]] + a[1..] == a;
    }
  }

  /** Joining tokens that hold no space and splitting the result gives the tokens back. */
  lemma {:induction false} SplitJoin(parts: seq<string>)
    requires |parts| >= 1
    requires forall i :: 0 <= i < |parts| ==> NoSpace(parts[i])
    ensures Split(Join(parts)) == parts
  {
    if |parts| == 1 {
      assert parts[0] + [] == parts[0];
      SplitToken(parts[0], []);
    } else {
      var rest := " " + Join(parts[1..]);
      assert Join(parts) == parts[0] + rest;
      SplitToken(parts[0], rest);
      assert rest[1..] == Join(parts[1..]);
      SplitJoin(parts[1..]);
      assert parts == [parts[0]] + parts[1..];
    }
  }

  predicate IsHelpFlag(a: string) {
    a == "--help" || a == "-h"
  }

  predicate IsVersionFlag(a: string) {
    a == "--version" || a == "-V"
  }

  /**
   * What `main` does with its arguments. A flag counts only as the sole
   * argument, and a lone `--` is an error; everything else is run.
   */
  function Decide(args: seq<string>): (d: Decision)
    ensures d == Usage <==> args == []
    ensures d == Help <==> |args| == 1 && IsHelpFlag(args[0])
    ensures d == Version <==> |args| == 1 && IsVersionFlag(args[0])
    ensures d == MissingCommand <==> args == ["--"]
    ensures d.Run? ==> args != [] && d.command == Join(CommandTokens(args))
  {
    if args == [] then Usage
    else if |args| == 1 && IsHelpFlag(args[0]) then Help
    else if |args| == 1 && IsVersionFlag(args[0]) then Version
    else if args[0] == "--" then
      if |args| == 1 then MissingCommand else Run(Join(args[1..]))
    else Run(Join(args))
  }

  /** The tokens that form the command: all arguments after a leading `--`, or all of them. */
  function CommandTokens(args: seq<string>): (r: seq<string>)
    requires args != []
    ensures |args| - 1 <= |r| <= |args| && r == args[|args| - |r|..]
    ensures |r| == |args| - 1 <==> args[0] == "--"
  {
    if args[0] == "--" then args[1..] else args
  }

  /**
   * When `main` runs a command, splitting the command line at its spaces gives
   * back exactly the command tokens, provided no token holds a space.
   */
  lemma DecideRunTokens(args: seq<string>)
    requires Decide(args).Run?
    requires forall i :: 0 <= i < |args| ==> NoSpace(args[i])
    ensures args != [] && Split(Decide(args).command) == CommandTokens(args)
  {
    var tokens := CommandTokens(args);
    assert |tokens| >= 1;
    SplitJoin(tokens);
  }

  /** `sentinel-rs -- --help` runs a command named `--help` instead of showing help. */
  lemma SeparatorThenFlagExample()
    ensures Decide(["--", "--help"]) == Run("--help")
  {
    assert ["--", "--help"][1..] == ["--help"];
  }

  /** A flag beside other arguments is part of the command. */
  lemma FlagAmongArgumentsExample()
    ensures Decide(["--help", "me"]) == Run("--help me")
  {
  }

  /**
   * One argument after `--` is the whole command, spaces and all:
   * `sentinel-rs -- "echo hello"` runs `echo hello`.
   */
  lemma QuotedCommand(t: string)
    ensures Decide(["--", t]) == Run(t)
  {
    assert ["--", t][1..] == [t];
  }

  /** `sentinel-rs -- ls -la` runs `ls -la`. */
  lemma SeparatedCommandExample()
    ensures Decide(["--", "ls", "-la"]) == Run("ls -la")
  {
    assert ["--", "ls", "-la"][1..] == ["ls", "-la"];
  }

  /**
   * The process exit code `main` ends with. A run ends with 0 whatever the
   * child did: `main` returns normally after the notifier is joined.
   */
  function ExitCode(d: Decision): (code: int)
    ensures code == 2 <==> d == Usage || d == MissingCommand
    ensures code != 2 ==> code == 0
  {
    match d
    case Usage => 2
    case MissingCommand => 2
    case Help => 0
    case Version => 0
    case Run(_) => 0
  }
}

=== FILE: decimal.dfy ===
/**
 * Decimal text of integers, as Rust's `{}` formatting writes them, and the
 * reader that recovers the number from that text.
 */
module Decimal {
  import opened Wrappers

  predicate IsDigit(c: char) {
    '0' <= c <= '9'
  }

  predicate AllDigits(s: string) {
    forall i :: 0 <= i < |s| ==> IsDigit(s[i])
  }

  function DigitChar(d: nat): (c: char)
    requires d < 10
    ensures IsDigit(c)
  {
    ('0' as int + d) as char
  }

  function DigitValue(c: char): (d: nat)
    requires IsDigit(c)
    ensures d < 10 && DigitChar(d) == c
  {
    c as int - '0' as int
  }

  /** `format!("{}", n)` for an unsigned integer: most significant digit first, no leading zero. */
  function NatToString(n: nat): (s: string)
    ensures |s| >= 1 && AllDigits(s)
    ensures s[0] == '0' ==> n == 0
    decreases n
  {
    if n < 10 then [DigitChar(n)] else NatToString(n / 10) + [DigitChar(n % 10)]
  }

  /** `format!("{}", i)` for a signed integer. */
  function IntToString(i: int): (s: string)
    ensures |s| >= 1
    ensures (s[0] == '-') <==> i < 0
  {
    if i < 0 then "-" + NatToString(-i) else NatToString(i)
  }

  /** The number a string of decimal digits denotes. */
  function ValueOf(s: string): nat
    requires AllDigits(s)
  {
    if s == [] then 0 else ValueOf(s[..|s| - 1]) * 10 + DigitValue(s[|s| - 1])
  }

  /** Reading the decimal text of `n` gives `n` back. */
  lemma {:induction false} ValueOfNatToString(n: nat)
    ensures ValueOf(NatToString(n)) == n
  {
    if n >= 10 {
      var s := NatToString(n);
      assert s[..|s| - 1] == NatToString(n / 10);
      ValueOfNatToString(n / 10);
    }
  }

  /** The longest prefix of `s` made of digits. */
  function TakeDigits(s: string): (d: string)
    ensures AllDigits(d) && |d| <= |s| && d == s[..|d|]
    ensures |d| < |s| ==> !IsDigit(s[|d|])
  {
    if s == [] || !IsDigit(s[0]) then [] else [s[0]] + TakeDigits(s[1..])
  }

  /** A digit string followed by a non-digit (or by nothing) is read back whole. */
  lemma {:induction false} TakeDigitsOf(d: string, rest: string)
    requires AllDigits(d)
    requires rest == [] || !IsDigit(rest[0])
    ensures TakeDigits(d + rest) == d
  {
    if d == [] {
      assert d + rest == rest;
    } else {
      assert (d + rest)[0] == d[0] && (d + rest)[1..] == d[1..] + rest;
      TakeDigitsOf(d[1..], rest);
    }
  }

  /** Reads an unsigned decimal number at the head of `s`; `None` when no digit is there. */
  function ReadNat(s: string): Option<nat> {
    var d := TakeDigits(s);
    if d == [] then None else Some(ValueOf(d))
  }

  /** Reads an optionally signed decimal integer at the head of `s`; `None` when no digit is there. */
  function ReadInt(s: string): Option<int> {
    if |s| > 0 && s[0] == '-' then
      match ReadNat(s[1..])
      case Some(n) => Some(-(n as int))
      case None => None
    else
      match ReadNat(s)
      case Some(n) => Some(n as int)
      case None => None
  }

  /** A non-empty digit string is read back whole when no digit follows it. */
  lemma ReadNatOfDigits(d: string, rest: string)
    requires d != [] && AllDigits(d)
    requires rest == [] || !IsDigit(rest[0])
    ensures ReadNat(d + rest) == Some(ValueOf(d))
  {
    TakeDigitsOf(d, rest);
  }

  /** The same without a sign: the digits' value is read back. */
  lemma ReadIntOfDigits(d: string, rest: string)
    requires d != [] && AllDigits(d)
    requires rest == [] || !IsDigit(rest[0])
    ensures ReadInt(d + rest) == Some(ValueOf(d))
  {
    ReadNatOfDigits(d, rest);
    assert (d + rest)[0] == d[0] && IsDigit(d[0]);
  }

  /** A leading minus negates the number read after it. */
  lemma ReadIntMinus(s: string, n: nat)
    requires ReadNat(s) == Some(n)
    ensures ReadInt("-" + s) == Some(-(n as int))
  {
    assert ("-" + s)[1..] == s;
  }

  /** Whatever follows the text of an integer, provided it does not start with a digit, the integer is read back. */
  lemma ReadIntToString(i: int, rest: string)
    requires rest == [] || !IsDigit(rest[0])
    ensures ReadInt(IntToString(i) + rest) == Some(i)
  {
    var n: nat := if i < 0 then -i else i;
    var d := NatToString(n);
    ValueOfNatToString(n);
    if i < 0 {
      assert "-" + d + rest == "-" + (d + rest);
      ReadNatOfDigits(d, rest);
      ReadIntMinus(d + rest, n);
    } else {
      assert IntToString(i) == d;
      ReadIntOfDigits(d, rest);
    }
  }
}

=== FILE: notify.dfy ===
/**
 * The notifications `main` sends for a run, and the text and payload each
 * one is delivered with (`format_message`, `telegram_payload`).
 */
module Notify {
  import opened Wrappers
  import opened Decimal
  import opened Tail
  import opened Runner

  /** How many trailing bytes of each captured stream a notification shows. */
  const TailLimit: nat := 1500

  /** `format_message`: a header line with the timestamp and the host, then the text. */
  function FormatMessage(ts: string, host: string, text: string): (r: string)
    ensures |r| == |ts| + |host| + |text| + 6
    ensures r[|r| - |text|..] == text
  {
    "[" + ts + "] [" + host + "]\n" + text
  }

  /** Where each field sits in a formatted message: the timestamp and the host in brackets, then a line break. */
  lemma FormatMessageLayout(ts: string, host: string, text: string)
    ensures var r := FormatMessage(ts, host, text);
            && r[..1] == "[" && r[1..1 + |ts|] == ts
            && r[1 + |ts|..4 + |ts|] == "] [" && r[4 + |ts|..4 + |ts| + |host|] == host
            && r[4 + |ts| + |host|..6 + |ts| + |host|] == "]\n"
            && r[6 + |ts| + |host|..] == text
  {
  }

  /** Everything after the first line break; empty when there is none. */
  function AfterFirstLine(s: string): string {
    if s == [] then []
    else if s[0] == '\n' then s[1..]
    else AfterFirstLine(s[1..])
  }

  lemma {:induction false} AfterFirstLineOf(head: string, rest: string)
    requires SingleLine(head)
    ensures AfterFirstLine(head + "\n" + rest) == rest
  {
    if head == [] {
      assert head + "\n" + rest == "\n" + rest;
    } else {
      assert (head + "\n" + rest)[1..] == head[1..] + "\n" + rest;
      AfterFirstLineOf(head[1..], rest);
    }
  }

  predicate SingleLine(s: string) {
    forall i :: 0 <= i < |s| ==> s[i] != '\n'
  }

  /** The body of a telegram message (`{"chat_id", "text", "disable_web_page_preview"}`). */
  datatype Payload = Payload(chatId: string, text: string, disableWebPagePreview: bool)

  /** `telegram_payload`. */
  function TelegramPayload(chatId: string, body: string): (p: Payload)
    ensures p.chatId == chatId && p.text == body && p.disableWebPagePreview
  {
    Payload(chatId, body, true)
  }

  /**
   * What `tg_send` posts for a message: addressed to the configured chat,
   * with link previews off, and the message itself intact below the header
   * line whenever the timestamp and the host name are single lines.
   */
  lemma PayloadCarriesMessage(chatId: string, ts: string, host: string, message: string)
    requires SingleLine(ts) && SingleLine(host)
    ensures var p := TelegramPayload(chatId, FormatMessage(ts, host, message));
            p.chatId == chatId && p.disableWebPagePreview && AfterFirstLine(p.text) == message
  {
    var head := "[" + ts + "] [" + host + "]";
    assert FormatMessage(ts, host, message) == head + "\n" + message;
    AfterFirstLineOf(head, message);
  }

  /** `format_message("2025-01-01 00:00:00", "host", "hello")`. */
  lemma FormatMessageExample()
    ensures FormatMessage("2025-01-01 00:00:00", "host", "hello") == "[2025-01-01 00:00:00] [host]\nhello"
  {
  }

  /** How a run ended, as the terminal notification reports it. */
  datatype Outcome =
    | ExecFailed(message: string)   // the run itself failed; the error's text
    | Succeeded                     // exit code 0
    | ExitedWith(code: int)         // any other exit code
    | KilledBySignal                // no exit code

  /** The classification `main` makes of `run_bash`'s result. */
  function Classify(ran: Result<Output, IoError>): (o: Outcome)
    ensures o.ExecFailed? <==> ran.Err?
    ensures o.ExecFailed? ==> o.message == ran.error.message
    ensures o == Succeeded <==> ran.Ok? && ran.value.status == Exited(0)
    ensures o.ExitedWith? <==> ran.Ok? && ran.value.status.Exited? && ran.value.status.code != 0
    ensures o.ExitedWith? ==> o.code == ran.value.status.code
    ensures o == KilledBySignal <==> ran.Ok? && ran.value.status == Signaled
  {
    match ran
    case Err(e) => ExecFailed(e.message)
    case Ok(o) =>
      match Code(o.status)
      case Some(c) => if c == 0 then Succeeded else ExitedWith(c)
      case None => KilledBySignal
  }

  const ExecFailedHead: string := "Failed to execute command: "
  const SucceededHead: string := "Finished successfully with exit code 0."
  const ExitedHead: string := "Failed with exit code: "
  const SignalHead: string := "Process terminated by signal."

  /** The two tails every notification about a finished child ends with; bounded however much the child wrote. */
  function Streams(o: Output): (s: string)
    ensures |s| <= 2 * (|TruncationMarker(TailLimit)| + TailLimit) + 18
  {
    "\nStdout:\n" + TailBytes(o.stdout, TailLimit) + "\nStderr:\n" + TailBytes(o.stderr, TailLimit)
  }

  /**
   * The terminal notification. Whenever the child ran to an end it shows the
   * tails of both streams, each within the limit of 1500 bytes.
   */
  function TerminalMessage(ran: Result<Output, IoError>): (m: string)
    ensures ran.Ok? ==> |m| >= |Streams(ran.value)| && m[|m| - |Streams(ran.value)|..] == Streams(ran.value)
  {
    match ran
    case Err(e) => ExecFailedHead + e.message
    case Ok(o) =>
      match Code(o.status)
      case Some(c) =>
        if c == 0 then SucceededHead + Streams(o)
        else ExitedHead + IntToString(c) + "." + Streams(o)
      case None => SignalHead + Streams(o)
  }

  predicate StartsWith(s: string, prefix: string) {
    |s| >= |prefix| && s[..|prefix|] == prefix
  }

  /** What a recipient reads off a terminal notification: its outcome, and the exit code when there is one. */
  function ReadOutcome(m: string): Option<Outcome> {
    if StartsWith(m, ExecFailedHead) then Some(ExecFailed(m[|ExecFailedHead|..]))
    else if StartsWith(m, SucceededHead) then Some(Succeeded)
    else if StartsWith(m, ExitedHead) then
      match ReadInt(m[|ExitedHead|..])
      case Some(c) => Some(ExitedWith(c))
      case None => None
    else if StartsWith(m, SignalHead) then Some(KilledBySignal)
    else None
  }

  /** Two heads that differ inside their common length cannot both start the same text. */
  lemma NotBoth(m: string, p: string, q: string, i: nat)
    requires i < |p| && i < |q| && p[i] != q[i]
    requires StartsWith(m, p)
    ensures !StartsWith(m, q)
  {
    assert m[i] == p[i];
  }

  lemma ReadExecFailedText(message: string)
    ensures ReadOutcome(ExecFailedHead + message) == Some(ExecFailed(message))
  {
    assert (ExecFailedHead + message)[..|ExecFailedHead|] == ExecFailedHead;
    assert (ExecFailedHead + message)[|ExecFailedHead|..] == message;
  }

  lemma ReadSucceededText(tail: string)
    ensures ReadOutcome(SucceededHead + tail) == Some(Succeeded)
  {
    var m := SucceededHead + tail;
    assert (SucceededHead + tail)[..|SucceededHead|] == SucceededHead;
    NotBoth(m, SucceededHead, ExecFailedHead, 1);
  }

  lemma ReadExitedText(c: int, tail: string)
    ensures ReadOutcome(ExitedHead + IntToString(c) + "." + tail) == Some(ExitedWith(c))
  {
    var rest := "." + tail;
    var m := ExitedHead + IntToString(c) + "." + tail;
    assert m == ExitedHead + (IntToString(c) + rest);
    assert (ExitedHead + (IntToString(c) + rest))[..|ExitedHead|] == ExitedHead;
    NotBoth(m, ExitedHead, ExecFailedHead, 7);
    NotBoth(m, ExitedHead, SucceededHead, 1);
    assert m[|ExitedHead|..] == IntToString(c) + rest;
    ReadIntToString(c, rest);
  }

  lemma ReadSignalText(tail: string)
    ensures ReadOutcome(SignalHead + tail) == Some(KilledBySignal)
  {
    var m := SignalHead + tail;
    assert (SignalHead + tail)[..|SignalHead|] == SignalHead;
    NotBoth(m, SignalHead, ExecFailedHead, 0);
    NotBoth(m, SignalHead, SucceededHead, 0);
    NotBoth(m, SignalHead, ExitedHead, 0);
  }

  /** The terminal notification states the outcome of the run, with its exit code, unambiguously. */
  lemma ReadTerminalMessage(ran: Result<Output, IoError>)
    ensures ReadOutcome(TerminalMessage(ran)) == Some(Classify(ran))
  {
    match ran
    case Err(e) =>
      ReadExecFailedText(e.message);
    case Ok(o) =>
      match Code(o.status)
      case Some(c) =>
        if c == 0 {
          ReadSucceededText(Streams(o));
        } else {
          ReadExitedText(c, Streams(o));
        }
      case None =>
        ReadSignalText(Streams(o));
  }

  /** The first notification of a run: a "Started" line, then the command line as it will be run. */
  function StartedMessage(command: string): (m: string)
    ensures StartsWith(m, "Started\n")
    ensures AfterFirstLine(m) == command
  {
    AfterFirstLineOf("Started", command);
    assert "Started\n" + command == "Started" + "\n" + command;
    "Started\n" + command
  }

  /**
   * What `main` enqueues once it has a command: the start notice, then one
   * terminal notice about the result of `run_bash`, in this order.
   */
  function Notifications(command: string, ran: Result<Output, IoError>): (ms: seq<string>)
    ensures |ms| == 2
    ensures ms[0] == StartedMessage(command) && AfterFirstLine(ms[0]) == command
    ensures ms[1] == TerminalMessage(RunBash(command, ran))
    ensures ReadOutcome(ms[1]) == Some(Classify(RunBash(command, ran)))
    ensures ran.Ok? ==> |ms[1]| >= |Streams(ran.value)| && ms[1][|ms[1]| - |Streams(ran.value)|..] == Streams(ran.value)
  {
    ReadTerminalMessage(RunBash(command, ran));
    [StartedMessage(command), TerminalMessage(RunBash(command, ran))]
  }

  /** A run whose `run_bash` fails reports the command and the original error after the fixed heads. */
  lemma ExecFailureNotice(command: string, e: IoError)
    ensures Notifications(command, Err(e))[1]
         == ExecFailedHead + "Failed to run bash command '" + command + "': " + e.message
  {
    var wrapped := RunBash(command, Err(e));
    assert wrapped == Err(IoError(e.kind, RunBashMessage(command, e)));
    assert Notifications(command, Err(e))[1] == ExecFailedHead + RunBashMessage(command, e);
  }

  /** A child that exits with 101 is reported as failed with that code, and its output tails follow. */
  lemma ExitCodeNoticeExample(out: seq<byte>, err: seq<byte>)
    ensures Notifications("exit 101", Ok(Output(Exited(101), out, err)))[1]
         == "Failed with exit code: 101." + Streams(Output(Exited(101), out, err))
  {
    var ran := Ok(Output(Exited(101), out, err));
    assert Notifications("exit 101", ran)[1] == TerminalMessage(ran);
    CodeText101();
  }

  lemma CodeText101()
    ensures ExitedHead + IntToString(101) + "." == "Failed with exit code: 101."
  {
    assert NatToString(10) == "10";
    assert NatToString(101) == "101";
  }
}

=== FILE: relay.dfy ===
/**
 * `read_stream`: drain a reader in chunks of at most 4096 bytes into an
 * accumulator, echoing every chunk to a writer when `tee` is set.
 *
 * The reader is a script of what its successive `read` calls deliver and the
 * writer a byte sink whose `write_all` calls may be refused. `Relay` is the
 * loop's meaning as a function of the two scripts; `Drain` is an independent
 * reference that ignores chunking, and the lemmas connect the two.
 */
module Relay {
  import opened Wrappers

  /** Length of the `chunk` array `read_stream` reads into. */
  const ChunkSize: nat := 4096

  /** A stretch of the source: bytes that are ready (none at all means end of stream), or a read error. */
  datatype Segment = Data(bytes: seq<byte>) | Fault(error: IoError)

  /** What a `write_all` call does: take every byte, or take the first `kept` bytes and fail. */
  datatype WriteOutcome = Accepted | Rejected(kept: nat, error: IoError)

  function Weight(s: Segment): nat {
    match s
    case Data(b) => |b| + 1
    case Fault(_) => 1
  }

  /** How much a script can still deliver; every read that is not at the end of the script lowers it. */
  function Size(script: seq<Segment>): nat {
    if script == [] then 0 else Weight(script[0]) + Size(script[1..])
  }

  function Min(a: nat, b: nat): nat {
    if a <= b then a else b
  }

  /**
   * One `read` into a buffer of `cap` bytes: the bytes delivered, never more
   * than `cap` and none only at the end of the stream, or the error; and
   * what the script still holds.
   */
  function NextRead(script: seq<Segment>, cap: nat): (r: (Result<seq<byte>, IoError>, seq<Segment>))
    ensures r.0.Ok? ==> |r.0.value| <= cap
    ensures cap > 0 && r.0 == Ok([]) ==> script == [] || script[0] == Data([])
    ensures cap > 0 && script != [] ==> Size(r.1) < Size(script)
  {
    if script == [] || cap == 0 then (Ok([]), script)
    else match script[0]
      case Fault(e) => (Err(e), script[1..])
      case Data(c) =>
        if |c| <= cap then (Ok(c), script[1..])
        else
          var rest := [Data(c[cap..])] + script[1..];
          assert rest[1..] == script[1..];
          (Ok(c[..cap]), rest)
  }

  /** `Ok(head + v)` for `Ok(v)`; an error stays the error. */
  function Prepend(head: seq<byte>, r: Result<seq<byte>, IoError>): Result<seq<byte>, IoError> {
    match r
    case Ok(v) => Ok(head + v)
    case Err(e) => Err(e)
  }

  lemma PrependConcat(a: seq<byte>, b: seq<byte>, r: Result<seq<byte>, IoError>)
    ensures Prepend(a, Prepend(b, r)) == Prepend(a + b, r)
  {
    if r.Ok? {
      assert a + (b + r.value) == (a + b) + r.value;
    }
  }

  /** The outcome of a relay run: what it returns and what it echoed to the writer. */
  datatype Relayed = Relayed(result: Result<seq<byte>, IoError>, echoed: seq<byte>)

  /** The write outcomes left after one `write_all`; once the script is used up, writes succeed. */
  function AfterWrite(outcomes: seq<WriteOutcome>): seq<WriteOutcome> {
    if outcomes == [] then [] else outcomes[1..]
  }

  function NextOutcome(outcomes: seq<WriteOutcome>): WriteOutcome {
    if outcomes == [] then Accepted else outcomes[0]
  }

  /** The meaning of the `read_stream` loop on a reader script and a writer's outcome script. */
  function Relay(script: seq<Segment>, outcomes: seq<WriteOutcome>, tee: bool): (r: Relayed)
    ensures !tee ==> r.echoed == []
    ensures tee && r.result.Ok? ==> r.echoed == r.result.value
    decreases Size(script)
  {
    if script == [] then Relayed(Ok([]), [])
    else
      var (read, rest) := NextRead(script, ChunkSize);
      match read
      case Err(e) => Relayed(Err(e), [])
      case Ok(chunk) =>
        if chunk == [] then Relayed(Ok([]), [])
        else if !tee then
          var later := Relay(rest, outcomes, tee);
          Relayed(Prepend(chunk, later.result), later.echoed)
        else match NextOutcome(outcomes)
          case Rejected(kept, e) => Relayed(Err(e), chunk[..Min(kept, |chunk|)])
          case Accepted =>
            var later := Relay(rest, AfterWrite(outcomes), tee);
            Relayed(Prepend(chunk, later.result), chunk + later.echoed)
  }

  /** The stream's content up to its end or its first error, regardless of how reads cut it into chunks. */
  datatype Drained = Drained(data: seq<byte>, fault: Option<IoError>)

  function Drain(script: seq<Segment>): Drained {
    if script == [] then Drained([], None)
    else match script[0]
      case Fault(e) => Drained([], Some(e))
      case Data(c) =>
        if c == [] then Drained([], None)
        else
          var later := Drain(script[1..]);
          Drained(c + later.data, later.fault)
  }

  /** What `read_stream` should return for a drained stream: all of it, or the error that cut it short. */
  function Expected(d: Drained): Result<seq<byte>, IoError> {
    if d.fault.None? then Ok(d.data) else Err(d.fault.value)
  }

  /** Splitting a ready stretch at `cap` changes nothing in the drained content. */
  lemma DrainSplit(c: seq<byte>, cap: nat, rest: seq<Segment>)
    requires 0 < cap < |c|
    ensures Drain([Data(c)] + rest)
         == Drained(c[..cap] + Drain([Data(c[cap..])] + rest).data, Drain([Data(c[cap..])] + rest).fault)
  {
    assert ([Data(c)] + rest)[1..] == rest;
    assert ([Data(c[cap..])] + rest)[1..] == rest;
    assert c == c[..cap] + c[cap..];
  }

  /** Without tee, the relay returns exactly the drained stream and echoes nothing. */
  lemma {:induction false} RelayWithoutTee(script: seq<Segment>, outcomes: seq<WriteOutcome>)
    ensures Relay(script, outcomes, false) == Relayed(Expected(Drain(script)), [])
    decreases Size(script)
  {
    if script != [] {
      var (read, rest) := NextRead(script, ChunkSize);
      if read.Ok? && read.value != [] {
        RelayWithoutTee(rest, outcomes);
        var c := script[0].bytes;
        if |c| > ChunkSize {
          assert script == [Data(c)] + script[1..];
          DrainSplit(c, ChunkSize, script[1..]);
        }
      }
    }
  }

  predicate AllAccepted(outcomes: seq<WriteOutcome>) {
    forall i :: 0 <= i < |outcomes| ==> outcomes[i].Accepted?
  }

  /**
   * With tee and a writer that takes every write, the relay returns the
   * drained stream and the writer receives the same bytes in the same order;
   * on a read error it has received what was read before the error.
   */
  lemma {:induction false} RelayTeeAccepted(script: seq<Segment>, outcomes: seq<WriteOutcome>)
    requires AllAccepted(outcomes)
    ensures Relay(script, outcomes, true) == Relayed(Expected(Drain(script)), Drain(script).data)
    decreases Size(script)
  {
    if script != [] {
      var (read, rest) := NextRead(script, ChunkSize);
      if read.Ok? && read.value != [] {
        assert NextOutcome(outcomes) == Accepted;
        RelayTeeAccepted(rest, AfterWrite(outcomes));
        var c := script[0].bytes;
        if |c| > ChunkSize {
          assert script == [Data(c)] + script[1..];
          DrainSplit(c, ChunkSize, script[1..]);
        }
      }
    }
  }

  /**
   * A relay that succeeds has read the stream to its end, returns all of it,
   * and has echoed exactly what it returns with tee and nothing without.
   */
  lemma {:induction false} RelaySucceeded(script: seq<Segment>, outcomes: seq<WriteOutcome>, tee: bool)
    requires Relay(script, outcomes, tee).result.Ok?
    ensures Drain(script) == Drained(Relay(script, outcomes, tee).result.value, None)
    ensures Relay(script, outcomes, tee).echoed == if tee then Relay(script, outcomes, tee).result.value else []
    decreases Size(script)
  {
    if script != [] {
      var (read, rest) := NextRead(script, ChunkSize);
      if read.Ok? && read.value != [] {
        var next := if tee then AfterWrite(outcomes) else outcomes;
        RelaySucceeded(rest, next, tee);
        var c := script[0].bytes;
        if |c| > ChunkSize {
          assert script == [Data(c)] + script[1..];
          DrainSplit(c, ChunkSize, script[1..]);
        }
      }
    }
  }

  /**
   * A relay that fails reports either the stream's first read error or, with
   * tee, the error of a refused write; and the writer never receives a byte
   * that is not, in order, part of the stream.
   */
  lemma {:induction false} RelayFailed(script: seq<Segment>, outcomes: seq<WriteOutcome>, tee: bool)
    requires Relay(script, outcomes, tee).result.Err?
    ensures var e := Relay(script, outcomes, tee).result.error;
            Drain(script).fault == Some(e)
            || (tee && exists i :: 0 <= i < |outcomes| && outcomes[i].Rejected? && outcomes[i].error == e)
    ensures Relay(script, outcomes, tee).echoed <= Drain(script).data
    decreases Size(script)
  {
    var (read, rest) := NextRead(script, ChunkSize);
    if script[0].Data? && |script[0].bytes| > ChunkSize {
      var c := script[0].bytes;
      assert script == [Data(c)] + script[1..];
      DrainSplit(c, ChunkSize, script[1..]);
    }
    if read.Ok? && read.value != [] {
      if !tee {
        RelayWithoutTee(script, outcomes);
        RelayFailed(rest, outcomes, tee);
      } else if NextOutcome(outcomes).Accepted? {
        RelayFailed(rest, AfterWrite(outcomes), tee);
        var e := Relay(script, outcomes, tee).result.error;
        if Drain(script).fault != Some(e) {
          var i :| 0 <= i < |AfterWrite(outcomes)| && AfterWrite(outcomes)[i].Rejected? && AfterWrite(outcomes)[i].error == e;
          assert outcomes[i + 1] == AfterWrite(outcomes)[i];
        }
      } else {
        assert outcomes[0] == NextOutcome(outcomes);
      }
    }
  }

  /** A `std::io::Read` whose successive reads follow a script. */
  class Reader {
    var script: seq<Segment>

    constructor (script: seq<Segment>)
      ensures this.script == script
    {
      this.script := script;
    }

    /** `read(&mut buf)`: fills the front of `buf` and says how many bytes it put there, or fails. */
    method Read(buf: array<byte>) returns (r: Result<nat, IoError>)
      modifies this, buf
      ensures var (next, rest) := NextRead(old(script), buf.Length);
              script == rest
              && (next.Err? ==> r == Err(next.error))
              && (next.Ok? ==> r == Ok(|next.value|) && buf[..|next.value|] == next.value)
    {
      if script == [] || buf.Length == 0 {
        r := Ok(0);
      } else {
        match script[0]
        case Fault(e) =>
          r := Err(e);
          script := script[1..];
        case Data(c) =>
          var n := Min(|c|, buf.Length);
          forall i | 0 <= i < n {
            buf[i] := c[i];
          }
          r := Ok(n);
          if n == |c| {
            script := script[1..];
          } else {
            script := [Data(c[n..])] + script[1..];
          }
      }
    }
  }

  /** A `std::io::Write` that keeps what it receives; its `write_all` calls follow a script of outcomes. */
  class Sink {
    var content: seq<byte>
    var outcomes: seq<WriteOutcome>
    var flushFaults: seq<Option<IoError>>

    constructor (outcomes: seq<WriteOutcome>, flushFaults: seq<Option<IoError>>)
      ensures content == [] && this.outcomes == outcomes && this.flushFaults == flushFaults
    {
      content := [];
      this.outcomes := outcomes;
      this.flushFaults := flushFaults;
    }

    /** `write_all(data)`: appends `data`, or the accepted part of it and fails. */
    method WriteAll(data: seq<byte>) returns (r: Result<(), IoError>)
      modifies this
      ensures outcomes == AfterWrite(old(outcomes)) && flushFaults == old(flushFaults)
      ensures match NextOutcome(old(outcomes))
              case Accepted => r == Ok(()) && content == old(content) + data
              case Rejected(kept, e) => r == Err(e) && content == old(content) + data[..Min(kept, |data|)]
    {
      var outcome := NextOutcome(outcomes);
      outcomes := AfterWrite(outcomes);
      match outcome
      case Accepted =>
        content := content + data;
        r := Ok(());
      case Rejected(kept, e) =>
        content := content + data[..Min(kept, |data|)];
        r := Err(e);
    }

    /** `flush()`: changes nothing the model observes, but may report an error. */
    method Flush() returns (r: Result<(), IoError>)
      modifies this
      ensures content == old(content) && outcomes == old(outcomes)
      ensures flushFaults == (if old(flushFaults) == [] then [] else old(flushFaults)[1..])
      ensures r == if old(flushFaults) != [] && old(flushFaults)[0].Some? then Err(old(flushFaults)[0].value) else Ok(())
    {
      if flushFaults != [] && flushFaults[0].Some? {
        r := Err(flushFaults[0].value);
      } else {
        r := Ok(());
      }
      flushFaults := if flushFaults == [] then [] else flushFaults[1..];
    }
  }

  /** What the writer has received of `b`: all of it with tee, nothing without. */
  function Echo(tee: bool, b: seq<byte>): seq<byte> {
    if tee then b else []
  }

  /** A read error ends the relay with that error, and nothing more is echoed. */
  lemma RelayOnError(script: seq<Segment>, outcomes: seq<WriteOutcome>, tee: bool)
    requires NextRead(script, ChunkSize).0.Err?
    ensures Relay(script, outcomes, tee) == Relayed(Err(NextRead(script, ChunkSize).0.error), [])
  {
  }

  /** An empty read ends the relay successfully, and nothing more is echoed. */
  lemma RelayAtEnd(script: seq<Segment>, outcomes: seq<WriteOutcome>, tee: bool)
    requires NextRead(script, ChunkSize).0 == Ok([])
    ensures Relay(script, outcomes, tee) == Relayed(Ok([]), [])
  {
  }

  /** A refused write ends the relay with the write's error. */
  lemma RelayOnRejected(script: seq<Segment>, outcomes: seq<WriteOutcome>)
    requires NextRead(script, ChunkSize).0.Ok? && NextRead(script, ChunkSize).0.value != []
    requires NextOutcome(outcomes).Rejected?
    ensures Relay(script, outcomes, true).result == Err(NextOutcome(outcomes).error)
  {
  }

  /** A chunk that is read (and, with tee, written) comes first in both the result and the echo. */
  lemma RelayOnChunk(script: seq<Segment>, outcomes: seq<WriteOutcome>, tee: bool)
    requires NextRead(script, ChunkSize).0.Ok? && NextRead(script, ChunkSize).0.value != []
    requires tee ==> NextOutcome(outcomes).Accepted?
    ensures var c := NextRead(script, ChunkSize).0.value;
            var later := Relay(NextRead(script, ChunkSize).1, if tee then AfterWrite(outcomes) else outcomes, tee);
            Relay(script, outcomes, tee) == Relayed(Prepend(c, later.result), Echo(tee, c) + later.echoed)
  {
    assert Echo(false, NextRead(script, ChunkSize).0.value) == [];
  }

  /** Moving a chunk from the relay still ahead into the accumulator keeps the whole unchanged. */
  lemma Advance(tee: bool, buf: seq<byte>, c: seq<byte>, later: Relayed)
    ensures Relayed(Prepend(buf, Prepend(c, later.result)), Echo(tee, buf) + (Echo(tee, c) + later.echoed))
         == Relayed(Prepend(buf + c, later.result), Echo(tee, buf + c) + later.echoed)
  {
    PrependConcat(buf, c, later.result);
    assert Echo(tee, buf) + (Echo(tee, c) + later.echoed) == (Echo(tee, buf) + Echo(tee, c)) + later.echoed;
  }

  /** How one round of the `read_stream` loop ends: with an error, at the end of the stream, or with `n` bytes read. */
  datatype Round = Failed(error: IoError) | Ended | Read(n: nat)

  /**
   * One round of the `read_stream` loop: read into `chunk`, stop on an error
   * or an empty read, otherwise echo the bytes read when `tee` is set.
   * `Relay` on the scripts before the round is what this round contributes
   * followed by `Relay` on the scripts after it.
   */
  method RelayRound(reader: Reader, writer: Sink, chunk: array<byte>, tee: bool) returns (round: Round)
    requires chunk.Length == ChunkSize
    modifies reader, writer, chunk
    ensures var now := Relay(old(reader.script), old(writer.outcomes), tee);
            match round
            case Failed(e) => now.result == Err(e) && writer.content == old(writer.content) + now.echoed
            case Ended => now == Relayed(Ok([]), []) && writer.content == old(writer.content)
            case Read(n) =>
              0 < n <= ChunkSize && Size(reader.script) < Size(old(reader.script))
              && var later := Relay(reader.script, writer.outcomes, tee);
              now == Relayed(Prepend(chunk[..n], later.result), Echo(tee, chunk[..n]) + later.echoed)
              && writer.content == old(writer.content) + Echo(tee, chunk[..n])
    ensures !tee ==> writer.content == old(writer.content) && writer.outcomes == old(writer.outcomes)
                     && writer.flushFaults == old(writer.flushFaults)
  {
    ghost var script, outcomes := reader.script, writer.outcomes;
    var read := reader.Read(chunk);
    if read.Err? {
      RelayOnError(script, outcomes, tee);
      assert writer.content + [] == writer.content;
      return Failed(read.error);
    }
    var n := read.value;
    if n == 0 {
      RelayAtEnd(script, outcomes, tee);
      return Ended;
    }
    assert script != [];
    if tee {
      var written := writer.WriteAll(chunk[..n]);
      if written.Err? {
        RelayOnRejected(script, outcomes);
        return Failed(written.error);
      }
      var _ := writer.Flush();
    }
    RelayOnChunk(script, outcomes, tee);
    round := Read(n);
  }

  /** When the loop stops, the accumulator and what the last round added make up the whole relay. */
  lemma Stop(start: Relayed, buf: seq<byte>, tee: bool, now: Relayed,
             initial: seq<byte>, before: seq<byte>, after: seq<byte>)
    requires start == Relayed(Prepend(buf, now.result), Echo(tee, buf) + now.echoed)
    requires now.result.Err? || now == Relayed(Ok([]), [])
    requires before == initial + Echo(tee, buf) && after == before + now.echoed
    ensures start.result == if now.result.Err? then now.result else Ok(buf)
    ensures after == initial + start.echoed
  {
    if now.result.Ok? {
      assert buf + [] == buf;
    }
  }

  /**
   * `read_stream(reader, writer, tee)`: returns what `Relay` says and leaves
   * on the writer exactly what `Relay` echoes; a failed flush is ignored.
   */
  method ReadStream(reader: Reader, writer: Sink, tee: bool) returns (r: Result<seq<byte>, IoError>)
    modifies reader, writer
    ensures r == Relay(old(reader.script), old(writer.outcomes), tee).result
    ensures writer.content == old(writer.content) + Relay(old(reader.script), old(writer.outcomes), tee).echoed
    ensures !tee ==> writer.outcomes == old(writer.outcomes) && writer.flushFaults == old(writer.flushFaults)
  {
    var buf: seq<byte> := [];
    var chunk := new byte[ChunkSize];
    ghost var start := Relay(reader.script, writer.outcomes, tee);
    assert Prepend([], start.result) == start.result by {
      if start.result.Ok? {
        assert [] + start.result.value == start.result.value;
      }
    }
    assert Echo(tee, []) + start.echoed == start.echoed;
    assert writer.content == old(writer.content) + Echo(tee, []);
    while true
      invariant chunk.Length == ChunkSize
      invariant var now := Relay(reader.script, writer.outcomes, tee);
                start == Relayed(Prepend(buf, now.result), Echo(tee, buf) + now.echoed)
      invariant writer.content == old(writer.content) + Echo(tee, buf)
      invariant !tee ==> writer.outcomes == old(writer.outcomes) && writer.flushFaults == old(writer.flushFaults)
      decreases Size(reader.script)
    {
      ghost var now := Relay(reader.script, writer.outcomes, tee);
      ghost var before := writer.content;
      var round := RelayRound(reader, writer, chunk, tee);
      match round
      case Failed(e) =>
        Stop(start, buf, tee, now, old(writer.content), before, writer.content);
        return Err(e);
      case Ended =>
        Stop(start, buf, tee, now, old(writer.content), before, writer.content);
        return Ok(buf);
      case Read(n) =>
        Advance(tee, buf, chunk[..n], Relay(reader.script, writer.outcomes, tee));
        buf := buf + chunk[..n];
    }
  }

  /** `read_stream` over a `Cursor` of `data` (the source's own tests): all of `data` comes back, and is echoed only with tee. */
  method ReadCursor(data: seq<byte>, tee: bool) returns (buf: Result<seq<byte>, IoError>, output: seq<byte>)
    ensures buf == Ok(data)
    ensures output == if tee then data else []
  {
    var reader := new Reader([Data(data)]);
    var writer := new Sink([], []);
    buf := ReadStream(reader, writer, tee);
    output := writer.content;
    assert Drain([Data(data)]) == Drained(data, None) by {
      if data != [] {
        assert [Data(data)][1..] == [];
      }
    }
    if tee {
      RelayTeeAccepted([Data(data)], []);
    } else {
      RelayWithoutTee([Data(data)], []);
    }
  }
}

=== FILE: runner.dfy ===
/**
 * `run_bash_with_tee` and `run_bash` without the operating system: the
 * spawn, the wait and the two relay threads are given as their results, and
 * what is modelled is how those results are combined into one.
 */
module Runner {
  import opened Wrappers

  /** How the child ended; `ExitStatus::code()` is `Some(code)` for an exit and `None` for a signal. */
  datatype ExitStatus = Exited(code: int) | Signaled

  function Code(s: ExitStatus): Option<int> {
    match s
    case Exited(c) => Some(c)
    case Signaled => None
  }

  /** `std::process::Output`: the status and both captured streams. */
  datatype Output = Output(status: ExitStatus, stdout: seq<byte>, stderr: seq<byte>)

  /** What `JoinHandle::join` gives for a relay thread: the relay's own result, or the thread panicked. */
  datatype Joined = Finished(result: Result<seq<byte>, IoError>) | Panicked

  /** `Command::spawn` and the two `take()`s of the piped streams. */
  datatype Spawn = SpawnFailed(error: IoError) | Child(hasStdout: bool, hasStderr: bool)

  const StdoutCaptureFailed: string := "Failed to capture stdout"
  const StderrCaptureFailed: string := "Failed to capture stderr"

  predicate JoinedOk(j: Joined) {
    j.Finished? && j.result.Ok?
  }

  /**
   * The end of `run_bash_with_tee`: `wait()?`, join stdout, join stderr, then
   * `out_buf?` and `err_buf?`, in that order. It succeeds exactly when the
   * wait and both relays succeeded, and then hands on the relays' buffers unchanged.
   */
  function Assemble(wait: Result<ExitStatus, IoError>, out: Joined, err: Joined): (r: Result<Output, IoError>)
    ensures r.Ok? <==> wait.Ok? && JoinedOk(out) && JoinedOk(err)
    ensures r.Ok? ==> r.value == Output(wait.value, out.result.value, err.result.value)
  {
    match wait
    case Err(e) => Err(e)
    case Ok(status) =>
      if out.Panicked? then Err(OtherError(StdoutCaptureFailed))
      else if err.Panicked? then Err(OtherError(StderrCaptureFailed))
      else match out.result
        case Err(e) => Err(e)
        case Ok(o) =>
          match err.result
          case Err(e) => Err(e)
          case Ok(x) => Ok(Output(status, o, x))
  }

  /**
   * Which failure `Assemble` reports when several happen: the wait's error
   * first; then a panicked stdout thread, then a panicked stderr thread; then
   * the stdout relay's error, then the stderr relay's. A panic on the stderr
   * side is thus reported ahead of an I/O error on the stdout side.
   */
  lemma AssemblePrecedence(wait: Result<ExitStatus, IoError>, out: Joined, err: Joined)
    ensures wait.Err? ==> Assemble(wait, out, err) == Err(wait.error)
    ensures wait.Ok? && out.Panicked? ==> Assemble(wait, out, err) == Err(OtherError(StdoutCaptureFailed))
    ensures wait.Ok? && out.Finished? && err.Panicked? ==> Assemble(wait, out, err) == Err(OtherError(StderrCaptureFailed))
    ensures wait.Ok? && out.Finished? && out.result.Err? && err.Finished?
            ==> Assemble(wait, out, err) == Err(out.result.error)
    ensures wait.Ok? && JoinedOk(out) && err.Finished? && err.result.Err?
            ==> Assemble(wait, out, err) == Err(err.result.error)
  {
  }

  /**
   * `run_bash_with_tee`: a failed spawn or a missing pipe ends the run at
   * once; otherwise the wait and the relays are assembled.
   */
  function RunWithTee(spawn: Spawn, wait: Result<ExitStatus, IoError>, out: Joined, err: Joined): (r: Result<Output, IoError>)
    ensures spawn.SpawnFailed? ==> r == Err(spawn.error)
    ensures spawn.Child? && !spawn.hasStdout ==> r == Err(OtherError(StdoutCaptureFailed))
    ensures spawn == Child(true, false) ==> r == Err(OtherError(StderrCaptureFailed))
    ensures r.Ok? <==> spawn == Child(true, true) && wait.Ok? && JoinedOk(out) && JoinedOk(err)
    ensures r.Ok? ==> r.value == Output(wait.value, out.result.value, err.result.value)
  {
    match spawn
    case SpawnFailed(e) => Err(e)
    case Child(hasStdout, hasStderr) =>
      if !hasStdout then Err(OtherError(StdoutCaptureFailed))
      else if !hasStderr then Err(OtherError(StderrCaptureFailed))
      else Assemble(wait, out, err)
  }

  /** The message `run_bash` puts on an error: it names the command and keeps the original message at its end. */
  function RunBashMessage(command: string, e: IoError): (m: string)
    ensures |m| == 31 + |command| + |e.message|
    ensures m[28..28 + |command|] == command
    ensures m[|m| - |e.message|..] == e.message
  {
    "Failed to run bash command '" + command + "': " + e.message
  }

  /** `run_bash`: the output passes unchanged; an error keeps its kind and gets `RunBashMessage`. */
  function RunBash(command: string, ran: Result<Output, IoError>): (r: Result<Output, IoError>)
    ensures r.Ok? <==> ran.Ok?
    ensures ran.Ok? ==> r == ran
    ensures ran.Err? ==> r.error.kind == ran.error.kind && r.error.message == RunBashMessage(command, ran.error)
  {
    match ran
    case Ok(o) => Ok(o)
    case Err(e) => Err(IoError(e.kind, RunBashMessage(command, e)))
  }
}

=== FILE: tail.dfy ===
/**
 * `tail_bytes`: the display text of a captured output buffer, limited to its
 * last `max` bytes and marked when anything was cut off.
 */
module Tail {
  import opened Wrappers
  import opened Utf8
  import opened Decimal

  /** U+2026 HORIZONTAL ELLIPSIS, the first character of every truncation marker. */
  const Ellipsis: char := '\U{2026}'
  const MarkerHead: string := [Ellipsis] + " (truncated, showing last "
  const MarkerTail: string := " bytes)\n"

  /** The line put before a truncated tail: the head, the limit in decimal digits, and the tail ending the line. */
  function TruncationMarker(max: nat): (m: string)
    ensures |m| > |MarkerHead| + |MarkerTail|
    ensures m[..|MarkerHead|] == MarkerHead && m[|m| - |MarkerTail|..] == MarkerTail
    ensures AllDigits(m[|MarkerHead|..|m| - |MarkerTail|])
  {
    MarkerHead + NatToString(max) + MarkerTail
  }

  /**
   * The text shown for `buf` under the limit `max`: the whole buffer when it
   * fits, otherwise the marker and the last `max` bytes. The text is bounded by
   * the limit whatever the size of the buffer, and a zero limit shows the marker
   * alone for any non-empty buffer.
   */
  function TailBytes(buf: seq<byte>, max: nat): (r: string)
    ensures |r| <= |TruncationMarker(max)| + max
    ensures |buf| <= max ==> |r| <= |buf|
    ensures max == 0 && buf != [] ==> r == TruncationMarker(0)
  {
    if |buf| <= max then Lossy(buf)
    else
      var slice := buf[|buf| - max..];
      TruncationMarker(max) + Lossy(slice)
  }

  /** A buffer within the limit is shown whole and unmarked, for every limit at or above its length. */
  lemma TailWithinLimit(buf: seq<byte>, max: nat)
    requires |buf| <= max
    ensures TailBytes(buf, max) == Lossy(buf)
  {
  }

  /** A buffer over the limit shows the marker and the decode of exactly its last `max` bytes, and nothing of the rest. */
  lemma TailOverLimit(cut: seq<byte>, shown: seq<byte>, max: nat)
    requires cut != [] && |shown| == max
    ensures TailBytes(cut + shown, max) == TruncationMarker(max) + Lossy(shown)
  {
    var buf := cut + shown;
    assert buf[|buf| - max..] == shown;
  }

  /** The limit a truncation marker at the head of `r` states; `None` when `r` does not start with a marker. */
  function StatedLimit(r: string): Option<nat> {
    if |r| >= |MarkerHead| && r[..|MarkerHead|] == MarkerHead then ReadNat(r[|MarkerHead|..]) else None
  }

  /** The marker states its limit so that a reader gets the number back. */
  lemma StatedLimitOfMarker(max: nat, rest: string)
    ensures StatedLimit(TruncationMarker(max) + rest) == Some(max)
  {
    var r := TruncationMarker(max) + rest;
    var digits := NatToString(max);
    assert r[..|MarkerHead|] == MarkerHead;
    assert r[|MarkerHead|..] == digits + (MarkerTail + rest);
    ReadNatOfDigits(digits, MarkerTail + rest);
    ValueOfNatToString(max);
  }

  /** For ASCII output the text is marked, and states `max`, exactly when the buffer is longer than `max`. */
  lemma TailMarkedIffTruncated(buf: seq<byte>, max: nat)
    requires AllAscii(buf)
    ensures StatedLimit(TailBytes(buf, max)) == if |buf| > max then Some(max) else None
  {
    if |buf| > max {
      StatedLimitOfMarker(max, Lossy(buf[|buf| - max..]));
    } else if buf != [] {
      LossyAscii(buf);
      var r := TailBytes(buf, max);
      assert r[0] as int < 0x80;
      assert |r| >= |MarkerHead| ==> r[..|MarkerHead|][0] != MarkerHead[0];
    }
  }

  /** For ASCII text the tail is the text itself when it fits, else the marker and its last `max` characters. */
  lemma {:induction false} TailOfAsciiText(s: string, max: nat)
    requires IsAsciiText(s)
    ensures TailBytes(Encode(s), max) == if |s| <= max then s else TruncationMarker(max) + s[|s| - max..]
  {
    EncodeAscii(s);
    if |s| <= max {
      LossyEncode(s);
    } else {
      var cut, shown := s[..|s| - max], s[|s| - max..];
      assert s == cut + shown;
      EncodeAppend(cut, shown);
      EncodeAscii(cut);
      TailOverLimit(Encode(cut), Encode(shown), max);
      LossyEncode(shown);
    }
  }

  /** `tail_bytes(b"abcdefghijklmnopqrstuvwxyz", 10)` keeps the last ten letters behind the marker. */
  lemma TailAlphabetExample()
    ensures TailBytes(Encode("abcdefghijklmnopqrstuvwxyz"), 10) == TruncationMarker(10) + "qrstuvwxyz"
  {
    AlphabetIsAscii();
    AlphabetTail();
    TailOfAsciiText("abcdefghijklmnopqrstuvwxyz", 10);
  }

  lemma AlphabetIsAscii()
    ensures IsAsciiText("abcdefghijklmnopqrstuvwxyz")
  {
  }

  lemma AlphabetTail()
    ensures |"abcdefghijklmnopqrstuvwxyz"| == 26 && "abcdefghijklmnopqrstuvwxyz"[16..] == "qrstuvwxyz"
  {
  }

  /** The marker for the limit 10 reads as the source's test expects. */
  lemma MarkerOfTen()
    ensures TruncationMarker(10) == "\U{2026} (truncated, showing last 10 bytes)\n"
  {
    TenDigits();
    MarkerText();
  }

  lemma TenDigits()
    ensures NatToString(10) == "10"
  {
  }

  lemma MarkerText()
    ensures MarkerHead + "10" + MarkerTail == "\U{2026} (truncated, showing last 10 bytes)\n"
  {
  }

  /** `tail_bytes(b"hello", 10)` is the text unchanged. */
  lemma TailHelloExample()
    ensures TailBytes(Encode("hello"), 10) == "hello"
  {
    TailOfAsciiText("hello", 10);
  }

  /** A buffer exactly as long as the limit is not marked: `tail_bytes(b"exact10!!", 9)`. */
  lemma TailExactBoundaryExample()
    ensures TailBytes(Encode("exact10!!"), 9) == "exact10!!"
  {
    TailOfAsciiText("exact10!!", 9);
  }

  /** An invalid byte inside the tail becomes U+FFFD, and its neighbours survive. */
  lemma TailNonUtf8Example()
    ensures TailBytes([0x66, 0xff, 0x6f], 10) == "f\U{FFFD}o"
  {
    var b: seq<byte> := [0x66, 0xff, 0x6f];
    assert DecodeOne(b) == Step('f', 1) && b[1..] == [0xff, 0x6f];
    assert DecodeOne(b[1..]) == Step(Replacement, 1) && b[2..] == [0x6f];
    assert DecodeOne(b[2..]) == Step('o', 1) && b[3..] == [];
  }
}

=== FILE: utf8.dfy ===
/**
 * Lossy UTF-8 decoding, as `String::from_utf8_lossy` performs it: well-formed
 * sequences (Table 3-7 of chapter 3 of the Unicode Standard) become their scalar
 * value, and each maximal subpart of an ill-formed sequence becomes one U+FFFD.
 * The encoder is the decoder's partner: decoding an encoding gives the text back.
 */
module Utf8 {
  import opened Wrappers

  /** U+FFFD REPLACEMENT CHARACTER. */
  const Replacement: char := '\U{FFFD}'

  predicate IsContinuation(b: byte) {
    0x80 <= b <= 0xBF
  }

  /** How many continuation bytes a well-formed sequence led by `lead` has; 0 for ASCII and for bytes that never lead. */
  function ContinuationCount(lead: byte): nat {
    if 0xC2 <= lead <= 0xDF then 1
    else if 0xE0 <= lead <= 0xEF then 2
    else if 0xF0 <= lead <= 0xF4 then 3
    else 0
  }

  /** Bounds of the second byte after `lead` (narrower than 80..BF after E0, ED, F0 and F4). */
  function SecondLow(lead: byte): byte {
    if lead == 0xE0 then 0xA0 else if lead == 0xF0 then 0x90 else 0x80
  }

  function SecondHigh(lead: byte): byte {
    if lead == 0xED then 0x9F else if lead == 0xF4 then 0x8F else 0xBF
  }

  /** How many bytes after `b[0]` continue a well-formed sequence led by `b[0]`. */
  function Matched(b: seq<byte>): (k: nat)
    requires |b| > 0
    ensures k <= ContinuationCount(b[0]) && k < |b|
  {
    var need := ContinuationCount(b[0]);
    if need == 0 || |b| < 2 || !(SecondLow(b[0]) <= b[1] <= SecondHigh(b[0])) then 0
    else if need == 1 || |b| < 3 || !IsContinuation(b[2]) then 1
    else if need == 2 || |b| < 4 || !IsContinuation(b[3]) then 2
    else 3
  }

  /** One decoded character and the number of bytes it used. */
  datatype Step = Step(c: char, width: nat)

  /** Decodes the character at the head of `b`: a scalar value, or U+FFFD for a maximal ill-formed subpart. */
  function DecodeOne(b: seq<byte>): (s: Step)
    requires |b| > 0
    ensures 1 <= s.width <= |b| && s.width <= 4
    ensures b[0] < 0x80 ==> s == Step(b[0] as int as char, 1)
    ensures s.c == Replacement ==> s.width == 1 + Matched(b)
  {
    var lead := b[0];
    var need := ContinuationCount(lead);
    var k := Matched(b);
    if lead < 0x80 then Step(lead as int as char, 1)
    else if need == 0 || k < need then Step(Replacement, 1 + k)
    else if need == 1 then
      Step(((lead as int - 0xC0) * 0x40 + (b[1] as int - 0x80)) as char, 2)
    else if need == 2 then
      var v := (lead as int - 0xE0) * 0x1000 + (b[1] as int - 0x80) * 0x40 + (b[2] as int - 0x80);
      assert v < 0xD800 || 0xE000 <= v < 0x10000;
      Step(v as char, 3)
    else
      var v := (lead as int - 0xF0) * 0x40000 + (b[1] as int - 0x80) * 0x1000
               + (b[2] as int - 0x80) * 0x40 + (b[3] as int - 0x80);
      assert 0x10000 <= v < 0x110000;
      Step(v as char, 4)
  }

  /** `String::from_utf8_lossy`: never fails, and never yields more characters than there are bytes. */
  function Lossy(b: seq<byte>): (s: string)
    ensures |s| <= |b|
    ensures s == [] <==> b == []
    decreases |b|
  {
    if b == [] then []
    else
      var st := DecodeOne(b);
      [st.c] + Lossy(b[st.width..])
  }

  predicate AllAscii(b: seq<byte>) {
    forall i :: 0 <= i < |b| ==> b[i] < 0x80
  }

  /** The characters with the same numbers as the bytes of an ASCII buffer. */
  function AsciiChars(b: seq<byte>): (s: string)
    requires AllAscii(b)
  {
    seq(|b|, i requires 0 <= i < |b| => b[i] as int as char)
  }

  /** On ASCII bytes the lossy decoder is the identity. */
  lemma {:induction false} LossyAscii(b: seq<byte>)
    requires AllAscii(b)
    ensures Lossy(b) == AsciiChars(b)
  {
    if b != [] {
      assert DecodeOne(b) == Step(b[0] as int as char, 1);
      LossyAscii(b[1..]);
      assert AsciiChars(b) == [b[0] as int as char] + AsciiChars(b[1..]);
    }
  }

  /** The UTF-8 encoding of one scalar value. */
  function EncodeChar(c: char): (b: seq<byte>)
    ensures 1 <= |b| <= 4
    ensures (c as int < 0x80) <==> |b| == 1
  {
    var v := c as int;
    if v < 0x80 then [v as byte]
    else if v < 0x800 then [(0xC0 + v / 0x40) as byte, (0x80 + v % 0x40) as byte]
    else if v < 0x10000 then
      var lo := v % 0x1000;
      [(0xE0 + v / 0x1000) as byte, (0x80 + lo / 0x40) as byte, (0x80 + lo % 0x40) as byte]
    else
      var mid := v % 0x40000;
      var lo := mid % 0x1000;
      [(0xF0 + v / 0x40000) as byte, (0x80 + mid / 0x1000) as byte,
       (0x80 + lo / 0x40) as byte, (0x80 + lo % 0x40) as byte]
  }

  /** The UTF-8 encoding of a string (the bytes of a Rust `b"…"` literal). */
  function Encode(s: string): (b: seq<byte>)
    ensures |b| >= |s|
  {
    if s == [] then [] else EncodeChar(s[0]) + Encode(s[1..])
  }

  lemma DecodeEncodedTwo(c: char, rest: seq<byte>)
    requires 0x80 <= c as int < 0x800
    ensures DecodeOne(EncodeChar(c) + rest) == Step(c, 2)
  {
    var v := c as int;
    var q, r := v / 0x40, v % 0x40;
    assert v == q * 0x40 + r && 0 <= r < 0x40;
    var b := EncodeChar(c) + rest;
    assert b[0] as int == 0xC0 + q && b[1] as int == 0x80 + r;
    assert ContinuationCount(b[0]) == 1;
    assert Matched(b) == 1;
  }

  lemma DecodeEncodedThree(c: char, rest: seq<byte>)
    requires 0x800 <= c as int < 0x10000
    ensures DecodeOne(EncodeChar(c) + rest) == Step(c, 3)
  {
    var v := c as int;
    var hi, lo := v / 0x1000, v % 0x1000;
    assert v == hi * 0x1000 + lo && 0 <= lo < 0x1000;
    var q, r := lo / 0x40, lo % 0x40;
    assert lo == q * 0x40 + r && 0 <= r < 0x40;
    var b := EncodeChar(c) + rest;
    assert b[0] as int == 0xE0 + hi && b[1] as int == 0x80 + q && b[2] as int == 0x80 + r;
    assert ContinuationCount(b[0]) == 2;
    assert SecondLow(b[0]) <= b[1] <= SecondHigh(b[0]);
    assert Matched(b) == 2;
  }

  lemma DecodeEncodedFour(c: char, rest: seq<byte>)
    requires 0x10000 <= c as int
    ensures DecodeOne(EncodeChar(c) + rest) == Step(c, 4)
  {
    var v := c as int;
    var hi, mid := v / 0x40000, v % 0x40000;
    assert v == hi * 0x40000 + mid && 0 <= mid < 0x40000;
    var m, lo := mid / 0x1000, mid % 0x1000;
    assert mid == m * 0x1000 + lo && 0 <= lo < 0x1000;
    var q, r := lo / 0x40, lo % 0x40;
    assert lo == q * 0x40 + r && 0 <= r < 0x40;
    var b := EncodeChar(c) + rest;
    assert b[0] as int == 0xF0 + hi && b[1] as int == 0x80 + m;
    assert b[2] as int == 0x80 + q && b[3] as int == 0x80 + r;
    assert ContinuationCount(b[0]) == 3;
    assert SecondLow(b[0]) <= b[1] <= SecondHigh(b[0]);
    assert Matched(b) == 3;
  }

  /** The decoder reads back exactly the character the encoder wrote, whatever follows it. */
  lemma DecodeEncodedChar(c: char, rest: seq<byte>)
    ensures DecodeOne(EncodeChar(c) + rest) == Step(c, |EncodeChar(c)|)
  {
    var v := c as int;
    if v < 0x80 {
    } else if v < 0x800 {
      DecodeEncodedTwo(c, rest);
    } else if v < 0x10000 {
      DecodeEncodedThree(c, rest);
    } else {
      DecodeEncodedFour(c, rest);
    }
  }

  /** Decoding the encoding of any text gives the text back. */
  lemma {:induction false} LossyEncode(s: string)
    ensures Lossy(Encode(s)) == s
  {
    if s != [] {
      var b := Encode(s);
      assert b == EncodeChar(s[0]) + Encode(s[1..]);
      DecodeEncodedChar(s[0], Encode(s[1..]));
      assert b[|EncodeChar(s[0])|..] == Encode(s[1..]);
      LossyEncode(s[1..]);
    }
  }

  /** Encoding distributes over concatenation. */
  lemma {:induction false} EncodeAppend(s: string, t: string)
    ensures Encode(s + t) == Encode(s) + Encode(t)
  {
    if s == [] {
      assert s + t == t;
    } else {
      assert (s + t)[0] == s[0] && (s + t)[1..] == s[1..] + t;
      EncodeAppend(s[1..], t);
    }
  }

  predicate IsAsciiText(s: string) {
    forall i :: 0 <= i < |s| ==> s[i] as int < 0x80
  }

  /** An ASCII text encodes to one byte per character. */
  lemma {:induction false} EncodeAscii(s: string)
    requires IsAsciiText(s)
    ensures |Encode(s)| == |s|
    ensures forall i :: 0 <= i < |s| ==> Encode(s)[i] as int == s[i] as int
  {
    if s != [] {
      EncodeAscii(s[1..]);
    }
  }
}

=== FILE: wrappers.dfy ===
/** Failure-carrying values and the I/O vocabulary shared by the other modules. */
module Wrappers {

  datatype Option<+T> = None | Some(value: T)

  /** The `Result<T, E>` of the program: a value or the error that replaced it. */
  datatype Result<+T, +E> = Ok(value: T) | Err(error: E)

  /** One byte of a stream or buffer (Rust `u8`). */
  newtype byte = b: int | 0 <= b < 0x100

  /** The kind of a `std::io::Error`: `ErrorKind::Other`, or any other kind by its name. */
  datatype ErrorKind = OtherKind | NamedKind(name: string)

  /** A `std::io::Error`: its kind and the text its `Display` shows. */
  datatype IoError = IoError(kind: ErrorKind, message: string)

  /** `std::io::Error::other(msg)`. */
  function OtherError(msg: string): IoError
  {
    IoError(OtherKind, msg)
  }
}
